=== FILE: README.md ===
# Font-finder: JSON-candidate extraction and result card, in Dafny

Font-finder sends a user's text or image to Google's Gemini model and asks it
to name the fonts it sees, as JSON. The model's reply is free text, so
`lib/gemini.ts` recovers a JSON candidate from it before calling `JSON.parse`.
The rule is an ordered fallback of two regular expressions:

1. the first "```json\n" fence up to the nearest following "\n```" (lazy capture);
2. otherwise the first `{` through the last `}` of the whole reply (greedy);
3. otherwise throw `Error("Failed to parse JSON from Gemini response")`.

The string parsed is `jsonMatch[1] || jsonMatch[0]`. So an empty fence interior
(falsy) makes the whole fence, backticks included, go to the parser. The parse
result is returned as it is. The image path also splits a `data:` URL into
its payload and media type. Both paths first check that `GEMINI_API_KEY` is set.
`components/Resultcard.tsx` colours a confidence badge in three tiers and shows
the percentage and the font's weight and style.

Modules:

- `Wrappers` (wrappers.dfy): `Option` (JavaScript `undefined`) and `Result` (a value or what is thrown).
- `JsString` (js_string.dfy): `String.prototype.split` with a one-character separator, and indexing its result.
- `Gemini` (gemini.dfy): the key check, the regex semantics as index predicates
  (`FenceAt`/`FirstFence`, `BraceAt`/`FirstBrace`), the searches proved against
  them, candidate extraction, the data-URL split and the two detection paths.
- `ExtractionProperties` (extraction_properties.dfy): what the extraction rule guarantees.
- `ResultCard` (result_card.dfy): the tiers, integer rendering and the card text.

`JSON.parse` is a parameter `parse: string -> Result<J, E>`. The Gemini call
is a parameter `respond` that maps what is sent (the user's text, or the image
part) to the reply text. Every property therefore holds for every parser and
every reply. Strings are sequences of Dafny `char`s, which are Unicode scalar
values (see "## Left out" for how this differs from JavaScript strings).

The prompts ask the model for a 0.50 confidence floor and at most 3 entries
(lib/gemini.ts:37-38, 99-100). The code enforces neither and checks no
element's shape: the parser's output is returned unchanged
(`ExtractionProperties.ResultIsParserOutput`).

## Model

| member | source | states |
|---|---|---|
| `Gemini.InitializeGeminiAI` | lib/gemini.ts:4-12 | succeeds exactly when the key is present and non-empty, and the client keeps that key; otherwise throws the fixed "GEMINI_API_KEY is not set in environment variables" error |
| `Gemini.IndexOf` | lib/gemini.ts:51 | the scan the regex engine does: returns the first occurrence of a pattern at or after a start index, or none exists |
| `Gemini.LastIndexOf` | lib/gemini.ts:52 | the greedy end of the brace match: returns the last index of a character, with none after it; none means the character is absent |
| `Gemini.FenceMatch` | lib/gemini.ts:51 | the match is the leftmost opener, with the nearest closer after it (`FirstFence`); that opener is the leftmost opener in the reply and no closer lies between; none means no opener has a closer after it |
| `Gemini.BraceMatch` | lib/gemini.ts:52 | the match is the first `{` with the farthest `}` after it (`FirstBrace`); none means no `}` follows any `{` |
| `Gemini.FenceRegex` | lib/gemini.ts:51 | `match` returns an array exactly when some opener is followed by a closer |
| `Gemini.BraceRegex` | lib/gemini.ts:52 | `match` returns an array exactly when some `{` precedes some `}`, and the array has no group 1 |
| `Gemini.Pick` | lib/gemini.ts:55 | JavaScript truthiness of group 1: a non-empty group 1 is taken; an empty or undefined group 1 gives the whole match; the result is always one of the two |
| `Gemini.JsonCandidate` | lib/gemini.ts:50-55 | there is no candidate exactly when neither regex can match; any candidate is a contiguous slice of the reply |
| `Gemini.ParseReply` | lib/gemini.ts:49-58 | no candidate: the fixed "Failed to parse JSON from Gemini response" error; otherwise the parser's success value is returned unchanged, or its failure is propagated |
| `Gemini.SplitDataUrl` | lib/gemini.ts:71-72 | the payload is undefined exactly when there is no comma; the payload has no comma, and the media type has neither `:` nor `;` |
| `Gemini.DataUrlParts` | lib/gemini.ts:71-72 | `"data:" + M + ";base64," + P` splits into media type M and payload P when M has no `;`, `:` or `,` and P has no `,` |
| `Gemini.CountZero` | lib/gemini.ts:71 | a count of zero separators is the same as no separator; this is why the payload is undefined exactly when there is no comma |
| `Gemini.SplitSubsetFree` | lib/gemini.ts:72 | the fields of a string lacking a character lack it too; this is why the media type has no `;` |
| `Gemini.DetectFontFromText` | lib/gemini.ts:16-63 | a missing key throws before anything else; otherwise the result is the shared extraction rule applied to the reply |
| `Gemini.DetectFontFromImage` | lib/gemini.ts:66-122 | a missing key throws before anything else; otherwise the result is the shared extraction rule applied to the reply to the split image part |
| `JsString.Split` | lib/gemini.ts:71-72 | `split` always yields at least one field |
| `JsString.Field` | lib/gemini.ts:71-72 | `split(sep)[k]` is undefined exactly past the last field, and a field never contains the separator |
| `JsString.SplitJoin` | lib/gemini.ts:71-72 | splitting loses nothing: joining the fields with the separator gives back the string |
| `JsString.FieldsFree` | lib/gemini.ts:71-72 | no field of a split contains the separator |
| `JsString.SplitCount` | lib/gemini.ts:71-72 | a split has one more field than the string has separators |
| `JsString.SplitNoSeparator` | lib/gemini.ts:71-72 | a string without the separator splits into itself alone |
| `JsString.SplitAtFirst` | lib/gemini.ts:71-72 | the first field is the text before the first separator; the remaining fields are the split of the text after it |
| `ExtractionProperties.FirstFenceUnique` | lib/gemini.ts:51 | the leftmost-lazy fence match is unique |
| `ExtractionProperties.FencedCandidate` | lib/gemini.ts:50-55 | with a fence match, the candidate is the text between the leftmost opener and the nearest closer. An empty interior gives the whole fence instead. Prose and a bare `{...}` around the fence are ignored |
| `ExtractionProperties.FencedCandidateHasNoCloser` | lib/gemini.ts:51 | a non-empty fenced candidate never contains "\n```", and its opener is the leftmost "```json\n" in the reply |
| `ExtractionProperties.OccursInSlice` | lib/gemini.ts:51 | an occurrence inside a slice of the reply is an occurrence in the reply, shifted by the slice's start and ending inside the slice; this is why the lazy capture holds no closer |
| `ExtractionProperties.BraceCandidate` | lib/gemini.ts:52-55 | without a fence match, the candidate runs from the first `{` to the last `}`: it starts with `{`, ends with `}`, has no `}` after it and no `{` before it |
| `ExtractionProperties.NoCandidateFails` | lib/gemini.ts:54-58 | when neither regex matches, the fixed error is thrown and the result does not depend on the parser |
| `ExtractionProperties.AbsentHead` | lib/gemini.ts:51 | a pattern cannot occur where its first character is absent |
| `ExtractionProperties.NoMarkersNoCandidate` | lib/gemini.ts:50-52 | a reply with no backtick and no `{` has no candidate |
| `ExtractionProperties.FenceAfterProse` | lib/gemini.ts:50-55 | a non-empty, single-line fenced body after prose without backticks is exactly what gets parsed, whatever follows |
| `ExtractionProperties.BareObjectInProse` | lib/gemini.ts:52-55 | with no backtick anywhere, a `{...}` object with no `{` before it and no `}` after it is located exactly |
| `ExtractionProperties.EmptyFenceParsesWholeFence` | lib/gemini.ts:55 | for "```json\n\n```" the whole fence text is the candidate |
| `ExtractionProperties.FencedReplyExample` | lib/gemini.ts:49-55 | for `Here is the result:\n` followed by a fenced `{"detectedFonts":[]}`, the candidate is that object |
| `ExtractionProperties.RefusalExample` | lib/gemini.ts:54-58 | "I cannot determine the font." fails with the fixed message |
| `ExtractionProperties.SameRuleBothPaths` | lib/gemini.ts:49-58 | given the same reply, the text and image paths return the same result |
| `ExtractionProperties.ResultIsParserOutput` | lib/gemini.ts:55 | a list the parser returns comes back whole: no confidence floor, no 3-entry cap |
| `ExtractionProperties.MissingKeyStopsBothPaths` | lib/gemini.ts:5-11 | an absent or empty key makes both paths throw the key error, whatever the reply |
| `ResultCard.ConfidenceColor` | components/Resultcard.tsx:12-16 | green exactly when the percentage is at least 80, blue exactly when it is in [60, 80), and yellow exactly when it is below 60 |
| `ResultCard.ExactlyOneTier` | components/Resultcard.tsx:12-16 | every integer percentage gets one of the three tiers (only one, since the tier strings differ) |
| `ResultCard.TierMonotone` | components/Resultcard.tsx:13-15 | raising the percentage never lowers the tier |
| `ResultCard.DigitChar` | components/Resultcard.tsx:23 | a digit d below ten renders as the decimal digit character whose value is d |
| `ResultCard.NatDigits` | components/Resultcard.tsx:23 | a natural number renders as decimal digits with no leading zero |
| `ResultCard.IntString` | components/Resultcard.tsx:23 | the rendered integer has a minus sign exactly when it is negative, then at least one digit and only digits, with no leading zero except for 0 itself, and reads back to the integer; this is the canonical decimal form `String(n)` gives |
| `ResultCard.NatDigitsRoundTrip` | components/Resultcard.tsx:23 | the rendered digits read back to the number |
| `ResultCard.MatchLabel` | components/Resultcard.tsx:23 | the badge text is exactly the rendered percentage followed by "% match", and the text before "% match" reads back to the percentage |
| `ResultCard.PropertiesLabel` | components/Resultcard.tsx:27 | the properties line is the weight, ", ", then the style; if the weight has no comma, the first comma of the line separates the two |
| `ResultCard.BadgeClass` | components/Resultcard.tsx:22 | the badge's class list is the tier followed by the fixed layout classes |
| `ResultCard.RenderCard` | components/Resultcard.tsx:10-31 | the card shows the font's name; its badge class is exactly the tier followed by the fixed layout classes; its badge text is exactly the rendered percentage followed by "% match"; the detail line is the properties line |

## Left out

- The Gemini SDK (`getGenerativeModel`, `generateContent`, `response.text()`, lib/gemini.ts:17-18, 45-47, 67-68, 104-106) is a foreign asynchronous call. The reply is the `respond` parameter, so an upstream failure of that call is not modelled.
- `JSON.parse` is library behaviour. It is the `parse` parameter, with no JSON grammar.
- The prompt template literals (lib/gemini.ts:20-42, 82-101) are fixed text. `respond` receives the user's text or the image part, not the prompt string.
- `console.error` and the catch-and-rethrow (lib/gemini.ts:59-62, 118-121) only log and pass on the same error.
- `Math.round(font.confidence * 100)` (components/Resultcard.tsx:11) is floating-point rounding. The percentage is an integer input. A missing or non-numeric confidence makes it NaN. The source then picks the yellow tier and renders "NaN% match"; an integer input cannot represent that case.
- Strings are sequences of Unicode scalar values, not UTF-16 code units. A reply holding a lone surrogate cannot be represented, and a character outside the Basic Multilingual Plane is one `char` here but two code units in JavaScript. Indices therefore differ from JavaScript's for such replies. The selected substring does not, because every marker (backtick, `json`, newline, braces, `,`, `;`, `:`) is ASCII.
- NatDigits: writes out every digit; JavaScript renders a Number of magnitude 10^21 or more in exponent form ("1e+21"). Such a percentage is reachable, because the confidence comes unvalidated from the parser, but the model does not render it as JavaScript would.
- IntString: inherits the same gap for magnitudes of 10^21 or more; below that it matches `String(n)` for integers.
- JSX markup and CSS class strings other than the tier and the badge classes are presentational.
- components/FontDetector.tsx (React state, file reading, clipboard, `fetch`), app/api/finder/route.ts (HTTP dispatch on `inputType`), app/page.tsx and app/layout.tsx are not part of this model.
- Per-element schema validation, the 0.50 floor and the 3-entry cap are not modelled, because the code does not enforce them.

=== FILE: extraction_properties.dfy ===
/**
 * What the candidate-extraction rule of lib/gemini.ts guarantees about the
 * string it hands to `JSON.parse`, and what it does not do with the result.
 */
module ExtractionProperties {
  import opened Wrappers
  import opened JsString
  import opened Gemini

  /** The fence the regex engine reports is determined by the reply. */
  lemma FirstFenceUnique(s: string, i: int, j: int, i2: int, j2: int)
    requires FirstFence(s, i, j) && FirstFence(s, i2, j2)
    ensures i == i2 && j == j2
  {
  }

  /** With a fence match, the candidate is the text between the leftmost
      opener and the nearest closer after it; when that text is empty the
      whole fence, backticks included, is used instead. */
  lemma FencedCandidate(s: string, i: int, j: int)
    requires FirstFence(s, i, j)
    ensures JsonCandidate(s) == Some(if j > i + |Opener| then s[i + |Opener|..j] else s[i..j + |Closer|])
  {
    var r := FenceMatch(s);
    FirstFenceUnique(s, i, j, r.value.0, r.value.1);
  }

  /** A non-empty fenced candidate never contains the closer, and its
      opener is the leftmost opener anywhere in the reply. */
  lemma FencedCandidateHasNoCloser(s: string, i: int, j: int)
    requires FirstFence(s, i, j) && j > i + |Opener|
    ensures JsonCandidate(s).Some?
    ensures forall k :: !OccursAt(JsonCandidate(s).value, Closer, k)
    ensures forall k :: k < i ==> !OccursAt(s, Opener, k)
  {
    FencedCandidate(s, i, j);
    var r := FenceMatch(s);
    FirstFenceUnique(s, i, j, r.value.0, r.value.1);
    var c := s[i + |Opener|..j];
    forall k ensures !OccursAt(c, Closer, k) {
      OccursInSlice(s, i + |Opener|, j, Closer, k);
    }
  }

  /** An occurrence inside a slice is an occurrence in the whole string,
      shifted by the slice's start. */
  lemma OccursInSlice(s: string, lo: int, hi: int, pat: string, k: int)
    requires 0 <= lo <= hi <= |s|
    ensures OccursAt(s[lo..hi], pat, k) ==> OccursAt(s, pat, lo + k) && lo + k + |pat| <= hi
  {
    if OccursAt(s[lo..hi], pat, k) {
      var inner, outer := s[lo..hi][k..k + |pat|], s[lo + k..lo + k + |pat|];
      assert forall t :: 0 <= t < |pat| ==> inner[t] == outer[t];
      assert inner == outer;
    }
  }

  /** Without a fence match, the candidate runs from the first `{` to the
      last `}`: it starts with `{`, ends with `}`, and no `}` follows it. */
  lemma BraceCandidate(s: string, i: int, j: int)
    requires forall i', j' :: !FenceAt(s, i', j')
    requires FirstBrace(s, i, j)
    ensures JsonCandidate(s) == Some(s[i..j + 1])
    ensures s[i..j + 1][0] == '{' && s[i..j + 1][j - i] == '}'
    ensures forall k :: j < k < |s| ==> s[k] != '}'
    ensures forall k :: 0 <= k < i ==> s[k] != '{'
  {
    assert FenceRegex(s).None?;
    var r := BraceMatch(s);
    assert r.value == (i, j);
    assert s[i..j + 1][0] == s[i] && s[i..j + 1][j - i] == s[j];
    forall k | j < k < |s| ensures s[k] != '}' {
      assert !BraceAt(s, i, k);
    }
    forall k | 0 <= k < i ensures s[k] != '{' {
      assert !BraceAt(s, k, j);
    }
  }

  /** Neither pattern matches: the fixed error is thrown whatever the parser
      is, so the parser is never consulted. */
  lemma NoCandidateFails<J, E>(s: string, parse: string -> Result<J, E>, other: string -> Result<J, E>)
    requires forall i, j :: !FenceAt(s, i, j)
    requires forall i, j :: !BraceAt(s, i, j)
    ensures ParseReply(s, parse) == Failure(Thrown(NoJsonMessage))
    ensures ParseReply(s, parse) == ParseReply(s, other)
  {
  }

  /** Where `c` is absent from `s`, no occurrence of a pattern starting with `c` begins. */
  lemma AbsentHead(s: string, pat: string)
    requires pat != [] && pat[0] !in s
    ensures forall k :: !OccursAt(s, pat, k)
  {
    forall k ensures !OccursAt(s, pat, k) {
      if 0 <= k && k + |pat| <= |s| {
        assert s[k..k + |pat|][0] == s[k];
        assert s[k] in s;
      }
    }
  }

  /** A reply with no backtick and no `{` never yields a candidate. */
  lemma NoMarkersNoCandidate(s: string)
    requires '`' !in s && '{' !in s
    ensures JsonCandidate(s).None?
  {
    AbsentHead(s, Opener);
    forall i | 0 <= i < |s| ensures s[i] != '{' {
      assert s[i] in s;
    }
  }

  /** A fenced object after plain prose is what gets parsed, whatever
      follows the fence. */
  lemma FenceAfterProse(prose: string, body: string, tail: string)
    requires '`' !in prose && '\n' !in body && body != ""
    ensures JsonCandidate(prose + Opener + body + Closer + tail) == Some(body)
  {
    var s := prose + Opener + body + Closer + tail;
    var i, j := |prose|, |prose| + |Opener| + |body|;
    assert s[i..i + |Opener|] == Opener;
    assert s[j..j + |Closer|] == Closer;
    assert s[i + |Opener|..j] == body;
    assert Opener[0] == '`' && Closer[0] == '\n';
    forall i' | 0 <= i' < i ensures !OccursAt(s, Opener, i') {
      assert s[i'] == prose[i'];
      assert prose[i'] in prose;
      assert i' + |Opener| <= |s| ==> s[i'..i' + |Opener|][0] == s[i'];
    }
    forall j' | i + |Opener| <= j' < j ensures !OccursAt(s, Closer, j') {
      assert s[j'] == body[j' - i - |Opener|];
      assert body[j' - i - |Opener|] in body;
      assert s[j'..j' + |Closer|][0] == s[j'];
    }
    assert FirstFence(s, i, j);
    FencedCandidate(s, i, j);
  }

  /** A bare object inside prose that has no backtick, no `{` before it and
      no `}` after it is located exactly. */
  lemma BareObjectInProse(before: string, obj: string, after: string)
    requires '`' !in before + obj + after
    requires '{' !in before && '}' !in after
    requires |obj| >= 2 && obj[0] == '{' && obj[|obj| - 1] == '}'
    ensures JsonCandidate(before + obj + after) == Some(obj)
  {
    var s := before + obj + after;
    AbsentHead(s, Opener);
    var i, j := |before|, |before| + |obj| - 1;
    assert s[i] == obj[0] && s[j] == obj[|obj| - 1];
    forall i' | 0 <= i' < i ensures s[i'] != '{' {
      assert s[i'] == before[i'];
      assert before[i'] in before;
    }
    forall j' | j < j' < |s| ensures s[j'] != '}' {
      assert s[j'] == after[j' - |before| - |obj|];
      assert after[j' - |before| - |obj|] in after;
    }
    assert FirstBrace(s, i, j);
    BraceCandidate(s, i, j);
    assert s[i..j + 1] == obj;
  }

  /** An empty fence interior is falsy, so the whole fence is parsed. */
  lemma EmptyFenceParsesWholeFence()
    ensures JsonCandidate("```json\n\n```") == Some("```json\n\n```")
  {
    var s := Opener + Closer;
    assert s == "```json\n\n```";
    assert s[0..|Opener|] == Opener;
    assert s[|Opener|..|Opener| + |Closer|] == Closer;
    assert FirstFence(s, 0, |Opener|);
    FencedCandidate(s, 0, |Opener|);
    assert s[0..|Opener| + |Closer|] == s;
  }

  /** A fenced reply with prose before it. The literals are passed in as
      parameters fixed by the precondition: written inline, they make the
      verifier unfold the searches on literal strings character by character. */
  lemma FencedReplyExample(prose: string, body: string)
    requires prose == "Here is the result:\n" && body == "{\"detectedFonts\":[]}"
    ensures JsonCandidate(prose + "```json\n" + body + "\n```") == Some(body)
  {
    assert '`' !in prose && '\n' !in body;
    FenceAfterProse(prose, body, "");
    assert prose + Opener + body + Closer + "" == prose + "```json\n" + body + "\n```";
  }

  /** A reply with no JSON at all fails with the fixed message. */
  lemma RefusalExample<J, E>(parse: string -> Result<J, E>)
    ensures ParseReply("I cannot determine the font.", parse) == Failure(Thrown(NoJsonMessage))
  {
    var s := "I cannot determine the font.";
    assert '`' !in s && '{' !in s;
    NoMarkersNoCandidate(s);
  }

  /** Both paths apply the identical rule: given the same reply, they return
      the same result, for every key and every parser. */
  lemma SameRuleBothPaths<J, E>(apiKey: Option<string>, text: string, imageData: string,
                                respondText: string -> string, respondImage: InlineData -> string,
                                parse: string -> Result<J, E>)
    requires respondText(text) == respondImage(SplitDataUrl(imageData))
    ensures DetectFontFromText(apiKey, text, respondText, parse)
         == DetectFontFromImage(apiKey, imageData, respondImage, parse)
  {
  }

  /** Whatever the parser returns is the result: a list of any length, with
      any values in it, is neither filtered nor truncated. */
  lemma ResultIsParserOutput<T>(reply: string, parse: string -> Result<seq<T>, string>, fonts: seq<T>)
    requires JsonCandidate(reply).Some? && parse(JsonCandidate(reply).value) == Success(fonts)
    ensures ParseReply(reply, parse) == Success(fonts)
  {
  }

  /** An absent or empty key stops both paths before the reply is looked at. */
  lemma MissingKeyStopsBothPaths<J, E>(apiKey: Option<string>, text: string, imageData: string,
                                       respondText: string -> string, respondImage: InlineData -> string,
                                       parse: string -> Result<J, E>)
    requires apiKey == None || apiKey == Some("")
    ensures DetectFontFromText(apiKey, text, respondText, parse) == Failure(Thrown(MissingKeyMessage))
    ensures DetectFontFromImage(apiKey, imageData, respondImage, parse) == Failure(Thrown(MissingKeyMessage))
  {
  }
}

=== FILE: gemini.dfy ===
/**
 * lib/gemini.ts: the API-key check, the data-URL split of the image path,
 * and the rule both detection paths use to recover a JSON candidate from
 * the model's free-text reply and hand it to the JSON parser.
 *
 * The Gemini SDK call and `JSON.parse` are not modelled: the reply is
 * produced by a `respond` parameter and the parser is a `parse` parameter,
 * so every property below holds for every reply and for every parser.
 */
module Gemini {
  import opened Wrappers
  import opened JsString

  const MissingKeyMessage: string := "GEMINI_API_KEY is not set in environment variables"
  const NoJsonMessage: string := "Failed to parse JSON from Gemini response"

  /** The opener and closer of the regex /```json\n([\s\S]*?)\n```/. */
  const Opener: string := "```json\n"
  const Closer: string := "\n```"

  /** What a detection can throw: an `Error` with a message, or the parser's own error. */
  datatype GeminiError<+E> = Thrown(message: string) | ParseFailure(cause: E)

  /** A constructed client; it only remembers the key it was built with. */
  datatype Client = Client(apiKey: string)

  /** The `inlineData` part sent with the image prompt; `None` is `undefined`. */
  datatype InlineData = InlineData(data: Option<string>, mimeType: Option<string>)

  /** The array `String.prototype.match` returns: `[0]` and capture group 1
      (`None` when the pattern has no group 1, i.e. `undefined`). */
  datatype MatchArray = MatchArray(whole: string, group1: Option<string>)

  // ---------------------------------------------------------------------
  // API key

  /** `initializeGeminiAI`: `!apiKey` is true for an absent or empty key. */
  function InitializeGeminiAI(apiKey: Option<string>): (r: Result<Client, GeminiError<string>>)
    ensures r.Success? <==> apiKey.Some? && apiKey.value != ""
    ensures r.Success? ==> r.value.apiKey == apiKey.value
    ensures r.Failure? ==> r.error == Thrown(MissingKeyMessage)
  {
    if apiKey.None? || apiKey.value == "" then Failure(Thrown(MissingKeyMessage))
    else Success(Client(apiKey.value))
  }

  // ---------------------------------------------------------------------
  // Regex semantics as index predicates

  /** `pat` occurs in `s` starting at index `k`. */
  ghost predicate OccursAt(s: string, pat: string, k: int)
  {
    0 <= k && k + |pat| <= |s| && s[k..k + |pat|] == pat
  }

  /** The fence regex can match with the opener at `i` and the closer at `j`. */
  ghost predicate FenceAt(s: string, i: int, j: int)
  {
    OccursAt(s, Opener, i) && i + |Opener| <= j && OccursAt(s, Closer, j)
  }

  /** The match a JavaScript engine returns for the fence regex: leftmost
      start, and for that start the nearest closer (the lazy `*?`). */
  ghost predicate FirstFence(s: string, i: int, j: int)
  {
    && FenceAt(s, i, j)
    && (forall i', j' :: i' < i ==> !FenceAt(s, i', j'))
    && (forall j' :: j' < j ==> !FenceAt(s, i, j'))
  }

  /** The brace regex /{[\s\S]*}/ can match from `i` through `j`. */
  ghost predicate BraceAt(s: string, i: int, j: int)
  {
    0 <= i < j < |s| && s[i] == '{' && s[j] == '}'
  }

  /** The match returned for the brace regex: leftmost start, and for that
      start the farthest `}` (the greedy `*`). */
  ghost predicate FirstBrace(s: string, i: int, j: int)
  {
    && BraceAt(s, i, j)
    && (forall i', j' :: i' < i ==> !BraceAt(s, i', j'))
    && (forall j' :: j < j' ==> !BraceAt(s, i, j'))
  }

  // ---------------------------------------------------------------------
  // Searching

  /** The first occurrence of `pat` in `s` at or after `from`. */
  function IndexOf(s: string, pat: string, from: nat): (r: Option<nat>)
    ensures r.Some? ==> from <= r.value && OccursAt(s, pat, r.value)
    ensures r.Some? ==> forall k :: from <= k < r.value ==> !OccursAt(s, pat, k)
    ensures r.None? ==> forall k :: from <= k ==> !OccursAt(s, pat, k)
    decreases |s| - from
  {
    if from + |pat| > |s| then None
    else if s[from..from + |pat|] == pat then Some(from)
    else IndexOf(s, pat, from + 1)
  }

  /** The last index of `c` in `s`. */
  function LastIndexOf(s: string, c: char): (r: Option<nat>)
    ensures r.Some? ==> r.value < |s| && s[r.value] == c
    ensures r.Some? ==> forall k :: r.value < k < |s| ==> s[k] != c
    ensures r.None? ==> c !in s
  {
    if s == [] then None
    else if s[|s| - 1] == c then Some(|s| - 1)
    else
      var r := LastIndexOf(s[..|s| - 1], c);
      assert forall k :: 0 <= k < |s| - 1 ==> s[..|s| - 1][k] == s[k];
      r
  }

  /** Where the fence regex matches: the first opener, then the first closer
      after it. If the first opener has no closer after it, no later one has. */
  function FenceMatch(s: string): (r: Option<(nat, nat)>)
    ensures r.Some? ==> FirstFence(s, r.value.0, r.value.1)
    ensures r.None? ==> forall i, j :: !FenceAt(s, i, j)
    // Two corollaries of `FirstFence`, stated for the lemmas that use them:
    // no opener at all before the match, and no closer inside the capture.
    ensures r.Some? ==> forall k :: k < r.value.0 ==> !OccursAt(s, Opener, k)
    ensures r.Some? ==> forall k :: r.value.0 + |Opener| <= k < r.value.1 ==> !OccursAt(s, Closer, k)
  {
    match IndexOf(s, Opener, 0)
    case None => None
    case Some(i) =>
      match IndexOf(s, Closer, i + |Opener|)
      case None => None
      case Some(j) => Some((i, j))
  }

  /** Where the brace regex matches: the first `{` through the last `}`,
      when that `}` lies after that `{`. */
  function BraceMatch(s: string): (r: Option<(nat, nat)>)
    ensures r.Some? ==> FirstBrace(s, r.value.0, r.value.1)
    ensures r.None? ==> forall i, j :: !BraceAt(s, i, j)
  {
    match IndexOf(s, "{", 0)
    case None =>
      assert forall k :: 0 <= k < |s| && s[k] == '{' ==> OccursAt(s, "{", k) by {
        forall k | 0 <= k < |s| && s[k] == '{' ensures OccursAt(s, "{", k) {
          assert s[k..k + 1] == [s[k]];
        }
      }
      None
    case Some(i) =>
      assert s[i..i + 1] == "{";
      assert forall k :: 0 <= k < i && s[k] == '{' ==> OccursAt(s, "{", k) by {
        forall k | 0 <= k < i && s[k] == '{' ensures OccursAt(s, "{", k) {
          assert s[k..k + 1] == [s[k]];
        }
      }
      match LastIndexOf(s, '}')
      case None => None
      case Some(j) => if i < j then Some((i, j)) else None
  }

  // ---------------------------------------------------------------------
  // Candidate extraction

  /** `textResponse.match(/```json\n([\s\S]*?)\n```/)`. */
  function FenceRegex(s: string): (m: Option<MatchArray>)
    ensures m.Some? <==> exists i, j :: FenceAt(s, i, j)
  {
    match FenceMatch(s)
    case None => None
    case Some((i, j)) => Some(MatchArray(s[i..j + |Closer|], Some(s[i + |Opener|..j])))
  }

  /** `textResponse.match(/{[\s\S]*}/)`: no capture group. */
  function BraceRegex(s: string): (m: Option<MatchArray>)
    ensures m.Some? <==> exists i, j :: BraceAt(s, i, j)
    ensures m.Some? ==> m.value.group1.None?
  {
    match BraceMatch(s)
    case None => None
    case Some((i, j)) => Some(MatchArray(s[i..j + 1], None))
  }

  /** `jsonMatch[1] || jsonMatch[0]`: an `undefined` or empty group is falsy. */
  function Pick(m: MatchArray): (c: string)
    ensures c == m.whole || Some(c) == m.group1
    ensures m.group1.Some? && m.group1.value != "" ==> c == m.group1.value
    ensures m.group1.None? || m.group1 == Some("") ==> c == m.whole
  {
    if m.group1.Some? && m.group1.value != "" then m.group1.value else m.whole
  }

  /** The string handed to `JSON.parse`, or `None` when neither regex matches. */
  function JsonCandidate(reply: string): (c: Option<string>)
    ensures c.None? <==> (forall i, j :: !FenceAt(reply, i, j)) && (forall i, j :: !BraceAt(reply, i, j))
    ensures c.Some? ==> exists a, b :: 0 <= a <= b <= |reply| && c.value == reply[a..b]
  {
    var jsonMatch := if FenceRegex(reply).Some? then FenceRegex(reply) else BraceRegex(reply);
    match jsonMatch
    case None => None
    case Some(m) => Some(Pick(m))
  }

  /** Lines 49-58 (text) and 108-117 (image): extract, then parse; the
      parser's result is returned as it is. */
  function ParseReply<J, E>(reply: string, parse: string -> Result<J, E>): (r: Result<J, GeminiError<E>>)
    ensures JsonCandidate(reply).None? ==> r == Failure(Thrown(NoJsonMessage))
    ensures r.Success? <==> JsonCandidate(reply).Some? && parse(JsonCandidate(reply).value).Success?
    ensures r.Success? ==> r.value == parse(JsonCandidate(reply).value).value
    ensures r.Failure? && JsonCandidate(reply).Some? ==>
      r.error == ParseFailure(parse(JsonCandidate(reply).value).error)
  {
    match JsonCandidate(reply)
    case None => Failure(Thrown(NoJsonMessage))
    case Some(c) =>
      match parse(c)
      case Success(v) => Success(v)
      case Failure(e) => Failure(ParseFailure(e))
  }

  // ---------------------------------------------------------------------
  // Data URL

  /** Lines 71-72: `imageData.split(",")[1]` and `imageData.split(";")[0].split(":")[1]`. */
  function SplitDataUrl(imageData: string): (part: InlineData)
    ensures part.data.None? <==> ',' !in imageData
    ensures part.data.Some? ==> ',' !in part.data.value
    ensures part.mimeType.Some? ==> ':' !in part.mimeType.value && ';' !in part.mimeType.value
  {
    var semi := Split(imageData, ';');
    FieldsFree(imageData, ';', 0);
    SplitCount(imageData, ',');
    CountZero(imageData, ',');
    var mime := Field(semi[0], ':', 1);
    assert mime.Some? ==> mime.value in Split(semi[0], ':');
    SplitSubsetFree(semi[0], ':', ';');
    InlineData(Field(imageData, ',', 1), mime)
  }

  /** No occurrence of `c` is the same as a count of zero. */
  lemma {:induction false} CountZero(s: string, c: char)
    ensures Count(s, c) == 0 <==> c !in s
  {
    if s != [] {
      CountZero(s[1..], c);
      assert s == [s[0]] + s[1..];
    }
  }

  /** A character missing from `s` is missing from each of its fields. */
  lemma {:induction false} SplitSubsetFree(s: string, sep: char, c: char)
    requires c !in s
    ensures forall f :: f in Split(s, sep) ==> c !in f
  {
    if s != [] {
      assert c !in s[1..];
      SplitSubsetFree(s[1..], sep, c);
    }
  }

  /** A well-formed data URL splits into its media type and its payload. */
  lemma DataUrlParts(m: string, p: string)
    requires ';' !in m && ':' !in m && ',' !in m
    requires ',' !in p
    ensures SplitDataUrl("data:" + m + ";base64," + p) == InlineData(Some(p), Some(m))
  {
    var url := "data:" + m + ";base64," + p;
    // split(",")
    assert url == ("data:" + m + ";base64") + [','] + p;
    assert ',' !in "data:" + m + ";base64";
    SplitAtFirst("data:" + m + ";base64", ',', p);
    SplitNoSeparator(p, ',');
    // split(";")[0]
    assert url == ("data:" + m) + [';'] + ("base64," + p);
    assert ';' !in "data:" + m;
    SplitAtFirst("data:" + m, ';', "base64," + p);
    // split(":")[1]
    assert "data:" + m == "data" + [':'] + m;
    SplitAtFirst("data", ':', m);
    SplitNoSeparator(m, ':');
  }

  // ---------------------------------------------------------------------
  // The two detection paths

  /** `detectFontFromText`: the key check comes first; `respond` stands for the
      model's reply to the prompt that embeds `text`. */
  function DetectFontFromText<J, E>(apiKey: Option<string>, text: string, respond: string -> string,
                                    parse: string -> Result<J, E>): (r: Result<J, GeminiError<E>>)
    ensures InitializeGeminiAI(apiKey).Failure? ==> r == Failure(Thrown(MissingKeyMessage))
    ensures InitializeGeminiAI(apiKey).Success? ==> r == ParseReply(respond(text), parse)
  {
    match InitializeGeminiAI(apiKey)
    case Failure(_) => Failure(Thrown(MissingKeyMessage))
    case Success(_) => ParseReply(respond(text), parse)
  }

  /** `detectFontFromImage`: the key check, then the data-URL split whose
      part goes to the model; `respond` stands for the model's reply to it. */
  function DetectFontFromImage<J, E>(apiKey: Option<string>, imageData: string, respond: InlineData -> string,
                                     parse: string -> Result<J, E>): (r: Result<J, GeminiError<E>>)
    ensures InitializeGeminiAI(apiKey).Failure? ==> r == Failure(Thrown(MissingKeyMessage))
    ensures InitializeGeminiAI(apiKey).Success? ==> r == ParseReply(respond(SplitDataUrl(imageData)), parse)
  {
    match InitializeGeminiAI(apiKey)
    case Failure(_) => Failure(Thrown(MissingKeyMessage))
    case Success(_) => ParseReply(respond(SplitDataUrl(imageData)), parse)
  }
}

=== FILE: js_string.dfy ===
/**
 * The JavaScript string primitives that lib/gemini.ts relies on:
 * `String.prototype.split` with a one-character separator, and `[k]` on
 * its result, which is `undefined` past the last field.
 */
module JsString {
  import opened Wrappers

  /** `s.split(sep)`: the maximal runs of characters between separators, in order.
      Like JavaScript, the empty string splits into one empty field. */
  function Split(s: string, sep: char): (fields: seq<string>)
    ensures |fields| >= 1
    decreases |s|
  {
    if s == [] then [""]
    else
      var rest := Split(s[1..], sep);
      if s[0] == sep then [""] + rest
      else [[s[0]] + rest[0]] + rest[1..]
  }

  /** The inverse of `Split`: the fields glued back together with the separator. */
  function Join(fields: seq<string>, sep: char): (s: string)
    requires |fields| >= 1
    decreases |fields|
  {
    if |fields| == 1 then fields[0] else fields[0] + [sep] + Join(fields[1..], sep)
  }

  /** `s.split(sep)[k]`: `None` models the `undefined` of an index past the end. */
  function Field(s: string, sep: char, k: nat): (f: Option<string>)
    ensures f.None? <==> k >= |Split(s, sep)|
    ensures f.Some? ==> sep !in f.value
  {
    var fields := Split(s, sep);
    if k < |fields| then FieldsFree(s, sep, k); Some(fields[k]) else None
  }

  /** Number of occurrences of `c` in `s`. */
  function Count(s: string, c: char): nat
  {
    if s == [] then 0 else (if s[0] == c then 1 else 0) + Count(s[1..], c)
  }

  /** Splitting loses nothing: joining the fields back gives the original string. */
  lemma {:induction false} SplitJoin(s: string, sep: char)
    ensures Join(Split(s, sep), sep) == s
  {
    if s != [] {
      var rest := Split(s[1..], sep);
      SplitJoin(s[1..], sep);
      if s[0] == sep {
        assert Split(s, sep)[1..] == rest;
      } else {
        var fields := Split(s, sep);
        if |rest| == 1 {
          assert fields == [[s[0]] + rest[0]];
        } else {
          assert fields[1..] == rest[1..];
          assert Join(rest, sep) == rest[0] + [sep] + Join(rest[1..], sep);
        }
      }
    }
  }

  /** No field contains the separator. */
  lemma {:induction false} FieldsFree(s: string, sep: char, k: nat)
    requires k < |Split(s, sep)|
    ensures sep !in Split(s, sep)[k]
  {
    if s != [] {
      var rest := Split(s[1..], sep);
      if s[0] == sep {
        if k > 0 { FieldsFree(s[1..], sep, k - 1); }
      } else if k == 0 {
        FieldsFree(s[1..], sep, 0);
      } else {
        FieldsFree(s[1..], sep, k);
      }
    }
  }

  /** There is one more field than there are separators. */
  lemma {:induction false} SplitCount(s: string, sep: char)
    ensures |Split(s, sep)| == Count(s, sep) + 1
  {
    if s != [] {
      SplitCount(s[1..], sep);
    }
  }

  /** A string without the separator is a single field. */
  lemma {:induction false} SplitNoSeparator(a: string, sep: char)
    requires sep !in a
    ensures Split(a, sep) == [a]
  {
    if a != [] {
      assert sep !in a[1..];
      SplitNoSeparator(a[1..], sep);
      assert [a[0]] + a[1..] == a;
    }
  }

  /** The first field is everything before the first separator, and the
      remaining fields are those of the text after it. */
  lemma {:induction false} SplitAtFirst(a: string, sep: char, b: string)
    requires sep !in a
    ensures Split(a + [sep] + b, sep) == [a] + Split(b, sep)
  {
    if a == [] {
      assert a + [sep] + b == [sep] + b;
      assert ([sep] + b)[1..] == b;
    } else {
      var s := a + [sep] + b;
      assert s[1..] == a[1..] + [sep] + b;
      assert sep !in a[1..];
      SplitAtFirst(a[1..], sep, b);
      assert [a[0]] + a[1..] == a;
    }
  }
}

=== FILE: result_card.dfy ===
/**
 * components/Resultcard.tsx: the colour tier of the confidence badge and
 * the text the card shows for one detected font. The percentage is taken
 * as an integer input (the rounding of `confidence * 100` is not modelled).
 */
module ResultCard {

  const GreenTier: string := "bg-green-100 text-green-800"
  const BlueTier: string := "bg-blue-100 text-blue-800"
  const YellowTier: string := "bg-yellow-100 text-yellow-800"

  datatype Properties = Properties(weight: string, style: string)

  /** The `Font` interface of the card's props. `confidence` is not read by
      this model: the card takes the rounded percentage as a separate input. */
  datatype Font = Font(name: string, confidence: real, properties: Properties)

  /** What the card renders: the title, the badge's class and text, and the
      properties line. */
  datatype Card = Card(title: string, badgeClass: string, badgeText: string, detail: string)

  /** `getConfidenceColor`: green from 80, blue from 60, yellow below. */
  function ConfidenceColor(percentage: int): (tier: string)
    ensures tier == GreenTier <==> percentage >= 80
    ensures tier == BlueTier <==> 60 <= percentage < 80
    ensures tier == YellowTier <==> percentage < 60
  {
    if percentage >= 80 then GreenTier
    else if percentage >= 60 then BlueTier
    else YellowTier
  }

  /** The order of the tiers: yellow below blue below green. */
  function TierRank(tier: string): nat
  {
    if tier == GreenTier then 2 else if tier == BlueTier then 1 else 0
  }

  /** Every percentage gets one of the three tiers. That it gets only one
      needs no statement: the three tier strings differ, and a function has
      one result. */
  lemma ExactlyOneTier(percentage: int)
    ensures ConfidenceColor(percentage) in {GreenTier, BlueTier, YellowTier}
  {
  }

  /** Raising the percentage never lowers the tier. */
  lemma TierMonotone(p: int, q: int)
    requires p <= q
    ensures TierRank(ConfidenceColor(p)) <= TierRank(ConfidenceColor(q))
  {
  }

  // ---------------------------------------------------------------------
  // Rendering an integer in decimal, as JSX renders a number

  function DigitChar(d: nat): (c: char)
    requires d < 10
    ensures '0' <= c <= '9'
    ensures c as int - '0' as int == d
  {
    (('0' as int) + d) as char
  }

  predicate IsDigit(c: char)
  {
    '0' <= c <= '9'
  }

  /** The decimal digits of `n`, without leading zeros. */
  function NatDigits(n: nat): (s: string)
    ensures |s| >= 1
    ensures forall k :: 0 <= k < |s| ==> IsDigit(s[k])
    ensures s[0] == '0' ==> n == 0 && s == "0"
    decreases n
  {
    if n < 10 then [DigitChar(n)] else NatDigits(n / 10) + [DigitChar(n % 10)]
  }

  /** The value of a string of decimal digits, the partner of `NatDigits`. */
  function DigitsValue(s: string): nat
    decreases |s|
  {
    if s == [] then 0
    else
      var d := (s[|s| - 1] as int) - ('0' as int);
      DigitsValue(s[..|s| - 1]) * 10 + (if 0 <= d then d else 0)
  }

  /** `String(n)` for an integer: a minus sign before the digits of a negative.
      It reads back to `n`, so distinct percentages never render alike. */
  function IntString(n: int): (s: string)
    ensures |s| > (if n < 0 then 1 else 0)
    ensures s[0] == '-' <==> n < 0
    ensures s[if n < 0 then 1 else 0] == '0' ==> n == 0 && s == "0"
    ensures forall k :: (if n < 0 then 1 else 0) <= k < |s| ==> IsDigit(s[k])
    ensures ParseInt(s) == n
  {
    if n < 0 then
      NatDigitsRoundTrip(-n);
      var s := "-" + NatDigits(-n);
      assert s[1..] == NatDigits(-n);
      s
    else
      NatDigitsRoundTrip(n);
      NatDigits(n)
  }

  /** Reading back a rendered integer. */
  function ParseInt(s: string): int
  {
    if |s| > 0 && s[0] == '-' then -(DigitsValue(s[1..]) as int) else DigitsValue(s)
  }

  /** The digits read back to the number they were made from. */
  lemma {:induction false} NatDigitsRoundTrip(n: nat)
    ensures DigitsValue(NatDigits(n)) == n
    decreases n
  {
    if n >= 10 {
      var s := NatDigits(n);
      NatDigitsRoundTrip(n / 10);
      assert s[..|s| - 1] == NatDigits(n / 10);
    }
  }

  // ---------------------------------------------------------------------
  // The card

  /** Line 23: `{confidencePercentage}% match`. The badge text ends in
      "% match" and the text before it reads back to the percentage. */
  function MatchLabel(percentage: int): (shown: string)
    ensures |shown| > 7 && shown[|shown| - 7..] == "% match"
    ensures shown[..|shown| - 7] == IntString(percentage)
    ensures ParseInt(shown[..|shown| - 7]) == percentage
  {
    var shown := IntString(percentage) + "% match";
    assert shown[..|shown| - 7] == IntString(percentage);
    shown
  }

  /** Line 27: `{font.properties.weight}, {font.properties.style}`. The line
      is the weight, a comma and a space, then the style; when the weight has
      no comma, the first comma of the line is the one between the two. */
  function PropertiesLabel(props: Properties): (shown: string)
    ensures |shown| == |props.weight| + 2 + |props.style|
    ensures shown[..|props.weight|] == props.weight
    ensures shown[|props.weight|..|props.weight| + 2] == ", "
    ensures shown[|props.weight| + 2..] == props.style
    ensures ',' !in props.weight ==> ',' !in shown[..|props.weight|] && shown[|props.weight|] == ','
  {
    props.weight + ", " + props.style
  }

  /** Line 22: the badge's class list starts with the tier, followed by the
      fixed layout classes. */
  function BadgeClass(percentage: int): (cls: string)
    ensures |cls| > |ConfidenceColor(percentage)|
    ensures cls[..|ConfidenceColor(percentage)|] == ConfidenceColor(percentage)
    ensures cls[|ConfidenceColor(percentage)|..] == " px-2 py-1 rounded text-sm"
  {
    ConfidenceColor(percentage) + " px-2 py-1 rounded text-sm"
  }

  /** `ResultCard`: the card for `font` with its integer percentage. */
  function RenderCard(font: Font, percentage: int): (card: Card)
    ensures card.title == font.name
    ensures card.badgeClass == BadgeClass(percentage)
    ensures card.badgeText == MatchLabel(percentage)
    ensures card.detail == PropertiesLabel(font.properties)
  {
    Card(font.name, BadgeClass(percentage), MatchLabel(percentage), PropertiesLabel(font.properties))
  }
}

=== FILE: wrappers.dfy ===
/** Option and Result values shared by the modules of this model. */
module Wrappers {

  /** `None` stands for JavaScript's `undefined` / `null` where the source can produce it. */
  datatype Option<+T> = None | Some(value: T)

  /** The outcome of an operation that may throw: `Failure` carries what is thrown. */
  datatype Result<+R, +E> = Success(value: R) | Failure(error: E)
}
